=== FILE: README.md ===
# MetaStats Java SDK — a Dafny model of its core

The MetaStats SDK fetches the trading statistics ("metrics") of a MetaApi
account from the MetaStats REST service. This project models its core in Dafny:

- `MetaStatsClient` (`meta_stats_client.dfy`). The client forms its host as
  `https://metastats-api-v1.` followed by a domain. The domain defaults to
  `agiliumtrade.agiliumtrade.ai`. The client describes the one HTTP request that
  fetches an account's metrics: a GET of `<host>/users/current/accounts/<id>/metrics`
  with the single query parameter `includeOpenPositions` and the single header
  `auth-token`. It unwraps the `metrics` field of the response envelope. In
  `CurrencySummaryMetrics`, the fields `short_` and `long_` travel under the wire
  keys `short` and `long`.
- `MetaStats` (`meta_stats.dfy`). The SDK entry point. Connection options
  default to 60 s request timeout, 60 s connect timeout and the default domain.
  Each timeout is multiplied by 1000 in Java `int` arithmetic before it reaches
  the transport. The model keeps the 32-bit wrap-around: 2147484 s arrives as
  -2147483296 ms. Both `getMetrics` overloads are forwarded to the client; the
  one-argument overload passes `false`.
- The JSON mapping that the codec tests pin down (`json_mapper_examples.dfy`):
  - the numerically tagged `Version` enum, where `ofNumber` inverts `getNumber`
    and an unknown tag reads as `null`;
  - a by-name enum;
  - a list of `Integer`, with order kept both ways;
  - an untyped `Map<String, Object>`, whose value kinds are inferred from the
    JSON nodes;
  - a record with fields named after Java keywords.
- Supporting modules:
  - `json_codec.dfy` holds the JSON tree, the field-binding rule (the
    `@JsonProperty` override, else the field name) with its two round trips,
    range-checked integer reads and untyped values.
  - `java_int.dfy` holds Java's integer widths and `int` multiplication.
  - `wrappers.dfy` holds `Option` and `Result`.

The HTTP transport's behaviour is a function parameter. It is applied to the
client's own transport handle (for the SDK, the `HttpClient` configured from the
connection options) and to the request description (`HttpRequestOptions`), and
answers with the decoded envelope or a failure. The retry options are a type
parameter that is handed on untouched.

`JsonMapper.java`, which configures the SDK's JSON mapper, is not part of this
model. Where its configuration matters, the model makes its own assumptions,
each listed under the heading "Left out" below:

- absent optional fields are omitted on encode;
- JSON `null` or a missing member reads as `null` for a reference field, and as
  Java's default 0 for a primitive field;
- members under undeclared keys are ignored;
- a by-name enum is read only from its identifier: an unknown identifier is an
  error, while an unknown numeric tag of `Version` reads as `null`.

## Model

| member | source | states |
|---|---|---|
| `MetaStatsClient.NewClient` | src/main/java/cloud/metaapi/sdk/clients/MetaStatsClient.java:34-38 | the host is the service prefix followed by the domain, unmodified (the domain can be read back from it); the transport and token are stored as given |
| `MetaStatsClient.NewDefaultClient` | src/main/java/cloud/metaapi/sdk/clients/MetaStatsClient.java:24-26 | the two-argument constructor is the three-argument one with domain `agiliumtrade.agiliumtrade.ai` |
| `MetaStatsClient.DefaultHost` | src/main/java/cloud/metaapi/sdk/clients/MetaStatsClient.java:24-38 | a client built with the default domain targets `https://metastats-api-v1.agiliumtrade.agiliumtrade.ai` |
| `MetaStatsClient.DomainOfHost` | src/main/java/cloud/metaapi/sdk/clients/MetaStatsClient.java:36 | a host has a domain exactly when it starts with the service prefix, and is then that prefix followed by the domain |
| `MetaStatsClient.HostDeterminesDomain` | src/main/java/cloud/metaapi/sdk/clients/MetaStatsClient.java:34-38 | two clients get the same host exactly when they were given the same domain |
| `MetaStatsClient.MetricsUrl` | src/main/java/cloud/metaapi/sdk/clients/MetaStatsClient.java:862 | the URL starts with the host and the accounts path, ends with `/metrics`, and holds the account id verbatim in between |
| `MetaStatsClient.AccountIdOfMetricsUrl` | src/main/java/cloud/metaapi/sdk/clients/MetaStatsClient.java:862 | any account id read from a URL rebuilds that URL as `<host>/users/current/accounts/<id>/metrics` |
| `MetaStatsClient.MetricsUrlRoundTrip` | src/main/java/cloud/metaapi/sdk/clients/MetaStatsClient.java:862 | the account id is put in the URL verbatim: whatever characters it holds, it is read back unchanged |
| `MetaStatsClient.MetricsRequestOptions` | src/main/java/cloud/metaapi/sdk/clients/MetaStatsClient.java:861-864 | the request is a GET; its URL names the account for the client's host; the query parameters are exactly `includeOpenPositions` with the flag; the headers are exactly `auth-token` with the token |
| `MetaStatsClient.MetricsRequestInjective` | src/main/java/cloud/metaapi/sdk/clients/MetaStatsClient.java:861-864 | two requests of one client are equal if and only if they name the same account and flag |
| `MetaStatsClient.DefaultClientMetricsRequest` | src/main/java/cloud/metaapi/sdk/clients/MetaStatsClient.java:861-864 | with the default domain the request is a GET of `https://metastats-api-v1.agiliumtrade.agiliumtrade.ai/users/current/accounts/<id>/metrics` with the flag and the token |
| `MetaStatsClient.GetMetrics` | src/main/java/cloud/metaapi/sdk/clients/MetaStatsClient.java:861-865 | the request is handed to the client's own transport handle; a transport failure passes through unchanged; a success yields the envelope's `metrics` field |
| `MetaStatsClient.GetMetricsDefault` | src/main/java/cloud/metaapi/sdk/clients/MetaStatsClient.java:849-851 | the one-argument call equals the two-argument call with `false` |
| `MetaStatsClient.GetMetricsAsksOnce` | src/main/java/cloud/metaapi/sdk/clients/MetaStatsClient.java:865 | two transports that answer the metrics request on the client's handle alike give the same result: the transport is consulted on that one request only |
| `MetaStatsClient.DecodeMetricsResponse` | src/main/java/cloud/metaapi/sdk/clients/MetaStatsClient.java:836-841 | the envelope decodes exactly when the body is an object whose `metrics` is absent, `null` or an object; absent or `null` `metrics` gives `null`, and a present `metrics` object is kept as is |
| `MetaStatsClient.GetMetricsUnwrapsEnvelope` | src/main/java/cloud/metaapi/sdk/clients/MetaStatsClient.java:865 | a body `{"metrics": m}` makes the call yield exactly `m` |
| `MetaStatsClient.CurrencySummaryWireKeys` | src/main/java/cloud/metaapi/sdk/clients/MetaStatsClient.java:131-154 | the five fields have distinct names and distinct wire keys; `short_` and `long_` travel as `short` and `long`, and every other field under its own name |
| `MetaStatsClient.CurrencySummaryReadsShortLong` | src/main/java/cloud/metaapi/sdk/clients/MetaStatsClient.java:145-153 | decoding fills `short_` and `long_` exactly from the members `short` and `long`; no field named `short` or `long` is filled |
| `MetaStatsClient.CurrencySummaryWritesShortLong` | src/main/java/cloud/metaapi/sdk/clients/MetaStatsClient.java:145-153 | encoding writes `short_` and `long_` exactly under `short` and `long`, and never under the field names |
| `MetaStats.DefaultConnectionOptions` | src/main/java/cloud/metaapi/sdk/MetaStats.java:20-37 | the default options are 60 s, 60 s and domain `agiliumtrade.agiliumtrade.ai` |
| `MetaStats.New` | src/main/java/cloud/metaapi/sdk/MetaStats.java:52-55 | each transport timeout is 1000 times the option modulo 2^32; the retry options, token and domain are forwarded unchanged |
| `MetaStats.NewWithDefaults` | src/main/java/cloud/metaapi/sdk/MetaStats.java:43-45 | the one-argument constructor uses the default options: a 60000 ms / 60000 ms transport and the default domain |
| `MetaStats.TimeoutsExact` | src/main/java/cloud/metaapi/sdk/MetaStats.java:53 | timeouts of at most 2147483 s in magnitude reach the transport as exact millisecond counts |
| `MetaStats.TimeoutOverflows` | src/main/java/cloud/metaapi/sdk/MetaStats.java:53 | a 2147484 s request timeout reaches the transport as -2147483296 ms |
| `MetaStats.GetMetrics` | src/main/java/cloud/metaapi/sdk/MetaStats.java:63-65 | the one-argument call is the client's call with `false` |
| `MetaStats.GetMetricsIncluding` | src/main/java/cloud/metaapi/sdk/MetaStats.java:74-76 | the two-argument call is the client's call with the same account id and flag |
| `MetaStats.GetMetricsExcludesOpenPositions` | src/main/java/cloud/metaapi/sdk/MetaStats.java:63-76 | the one-argument overload equals the two-argument one with `false` |
| `MetaStats.SdkMetricsRequest` | src/main/java/cloud/metaapi/sdk/MetaStats.java:52-55 | an SDK built from options sends a GET of the metrics URL under the options' domain, carrying exactly the flag and the token |
| `MetaStats.SdkUsesConfiguredTransport` | src/main/java/cloud/metaapi/sdk/MetaStats.java:52-55 | an SDK's metrics call is answered by the transport configured as `HttpClient(requestTimeout*1000, connectTimeout*1000, retryOpts)` in Java `int` arithmetic, applied to the metrics request |
| `JavaInt.MulInt32` | src/main/java/cloud/metaapi/sdk/MetaStats.java:53 | Java `int` multiplication: congruent to the exact product modulo 2^32, and equal to it when it fits |
| `JsonCodec.WireKey` | src/main/java/cloud/metaapi/sdk/clients/MetaStatsClient.java:147-152 | a field carrying `@JsonProperty` travels under the declared key, any other field under its own name |
| `JsonCodec.ToWire` | src/main/java/cloud/metaapi/sdk/clients/MetaStatsClient.java:147-153 | a field is written if and only if it is present, under its wire key, with its value; nothing else is written |
| `JsonCodec.FromWire` | src/main/java/cloud/metaapi/sdk/clients/MetaStatsClient.java:147-153 | a field is filled if and only if its wire key is a member, from that member; no undeclared field is filled |
| `JsonCodec.FromWireToWire` | src/main/java/cloud/metaapi/sdk/clients/MetaStatsClient.java:145-153 | decoding an encoded record gives back the record |
| `JsonCodec.ToWireFromWire` | src/main/java/cloud/metaapi/sdk/clients/MetaStatsClient.java:145-153 | encoding a decoded object whose keys are all wire keys gives back the object |
| `JsonCodec.DecodeInt16` | src/test/unit/java/cloud/metaapi/sdk/util/JsonMapperTest.java:171-176 | a `short` is read exactly when the node is a number in the 16-bit range, and then equals it; a non-number is `WrongKind` and a number out of range is `OutOfRange` |
| `JsonCodec.DecodeInt32` | src/test/unit/java/cloud/metaapi/sdk/util/JsonMapperTest.java:60-61 | an `int` is read exactly when the node is a number in the 32-bit range, and then equals it; a non-number is `WrongKind` and a number out of range is `OutOfRange` |
| `JsonCodec.DecodeInt64` | src/test/unit/java/cloud/metaapi/sdk/util/JsonMapperTest.java:171-176 | a `long` is read exactly when the node is a number in the 64-bit range, and then equals it; a non-number is `WrongKind` and a number out of range is `OutOfRange` |
| `JsonCodec.InferOpen` | src/test/unit/java/cloud/metaapi/sdk/util/JsonMapperTest.java:149-151 | an untyped value has the same shape as its node at every depth: the same kind, array items in order, object members key by key |
| `JsonCodec.WriteOpen` | src/test/unit/java/cloud/metaapi/sdk/util/JsonMapperTest.java:149-151 | a node has the same shape as the untyped value it was written from at every depth: the same kind, array items in order, object members key by key |
| `JsonCodec.InferWriteRoundTrip` | src/test/unit/java/cloud/metaapi/sdk/util/JsonMapperTest.java:156-169 | every untyped value survives writing and inferring back |
| `JsonCodec.WriteInferRoundTrip` | src/test/unit/java/cloud/metaapi/sdk/util/JsonMapperTest.java:156-169 | every JSON tree survives inferring an untyped value and writing it back |
| `JsonMapperExamples.GetNumber` | src/test/unit/java/cloud/metaapi/sdk/util/JsonMapperTest.java:55-74 | the tags are 4 and 5, in declaration order: each member's tag is 4 plus its position in `Version.values()` |
| `JsonMapperExamples.Scan` | src/test/unit/java/cloud/metaapi/sdk/util/JsonMapperTest.java:62-64 | a member found carries the tag asked for and is among those scanned; nothing found means no member scanned carries it |
| `JsonMapperExamples.OfNumber` | src/test/unit/java/cloud/metaapi/sdk/util/JsonMapperTest.java:60-65 | `ofNumber(n)` carries tag `n`, and is `null` if and only if no member carries `n` |
| `JsonMapperExamples.ScanFindsMember` | src/test/unit/java/cloud/metaapi/sdk/util/JsonMapperTest.java:62-63 | scanning distinctly tagged members for one member's tag finds exactly that member |
| `JsonMapperExamples.OfNumberGetNumber` | src/test/unit/java/cloud/metaapi/sdk/util/JsonMapperTest.java:54-74 | `ofNumber(v.getNumber())` is `v` for every member |
| `JsonMapperExamples.GetNumberOfNumber` | src/test/unit/java/cloud/metaapi/sdk/util/JsonMapperTest.java:54-74 | `ofNumber(n)` is `null` if and only if `n` is neither 4 nor 5, and otherwise carries tag `n` |
| `JsonMapperExamples.EncodeVersion` | src/test/unit/java/cloud/metaapi/sdk/util/JsonMapperTest.java:71-74 | a `Version` is written as the number of its tag |
| `JsonMapperExamples.DecodeVersion` | src/test/unit/java/cloud/metaapi/sdk/util/JsonMapperTest.java:60-65 | `null` reads as `null`; an `int` reads as `ofNumber` of it (the member with that tag, or `null`); anything else is an error |
| `JsonMapperExamples.VersionRoundTrip` | src/test/unit/java/cloud/metaapi/sdk/util/JsonMapperTest.java:136-147 | every member survives writing and reading back; `VERSION_4` is written as `4` |
| `JsonMapperExamples.UnknownTagIsNull` | src/test/unit/java/cloud/metaapi/sdk/util/JsonMapperTest.java:64 | an `int` that is no member's tag reads as `null`, not as an error |
| `JsonMapperExamples.ExampleEnumByName` | src/test/unit/java/cloud/metaapi/sdk/util/JsonMapperTest.java:86-90 | an identifier matches a member if and only if it is that member's name, compared case-sensitively |
| `JsonMapperExamples.EncodeEnumModel` | src/test/unit/java/cloud/metaapi/sdk/util/JsonMapperTest.java:96-102 | `field` is written if and only if present, as a text node holding the member's name |
| `JsonMapperExamples.DecodeEnumModel` | src/test/unit/java/cloud/metaapi/sdk/util/JsonMapperTest.java:86-90 | the model reads if and only if it is an object whose `field` is absent, `null`, or the text of a member's name; absent or `null` gives `null`, the text gives that member |
| `JsonMapperExamples.EnumModelRoundTrip` | src/test/unit/java/cloud/metaapi/sdk/util/JsonMapperTest.java:27-38 | every enum model survives writing and reading back |
| `JsonMapperExamples.EnumModelByName` | src/test/unit/java/cloud/metaapi/sdk/util/JsonMapperTest.java:86-102 | `{"field": "SOME_VALUE"}` reads as `SOME_VALUE`, and `SOME_VALUE` is written as that text |
| `JsonMapperExamples.EncodeInts` | src/test/unit/java/cloud/metaapi/sdk/util/JsonMapperTest.java:121-130 | the array has the list's length and holds each element, in order |
| `JsonMapperExamples.DecodeInts` | src/test/unit/java/cloud/metaapi/sdk/util/JsonMapperTest.java:108-116 | an array reads if and only if every item is an `int` number; the list then has the array's length and holds each item, in order |
| `JsonMapperExamples.EncodeListModel` | src/test/unit/java/cloud/metaapi/sdk/util/JsonMapperTest.java:121-130 | `list` is written if and only if present, as the array of its elements |
| `JsonMapperExamples.DecodeListModel` | src/test/unit/java/cloud/metaapi/sdk/util/JsonMapperTest.java:108-116 | the model reads if and only if it is an object whose `list` is absent, `null`, or an array of `int` numbers; absent or `null` gives `null`; a list read has the array's length and elements, in order |
| `JsonMapperExamples.ListModelRoundTrip` | src/test/unit/java/cloud/metaapi/sdk/util/JsonMapperTest.java:43-49 | every list model survives writing and reading back, element order included |
| `JsonMapperExamples.ListModelExampleValues` | src/test/unit/java/cloud/metaapi/sdk/util/JsonMapperTest.java:108-130 | `{"list": [28, 42]}` reads as the list 28, 42, and that list is written as that object |
| `JsonMapperExamples.EncodeMapModel` | src/test/unit/java/cloud/metaapi/sdk/util/JsonMapperTest.java:158-166 | `data` is written if and only if present, as an object with the map's keys, each node shaped like its value at every depth, so nested lists of maps are written item by item in order |
| `JsonMapperExamples.DecodeMapModel` | src/test/unit/java/cloud/metaapi/sdk/util/JsonMapperTest.java:167-168 | the model reads if and only if it is an object whose `data` is absent, `null` or an object; absent or `null` gives `null`; a map read has the object's keys with values shaped like their nodes at every depth, and writing it back gives exactly the `data` object read, nested contents included |
| `JsonMapperExamples.MapModelRoundTrip` | src/test/unit/java/cloud/metaapi/sdk/util/JsonMapperTest.java:156-169 | every untyped map model survives writing and reading back |
| `JsonMapperExamples.MapModelExampleValues` | src/test/unit/java/cloud/metaapi/sdk/util/JsonMapperTest.java:157-168 | the map `a → 42, b → "Hello", children → [{c → 3000}]` and its JSON tree correspond both ways |
| `JsonMapperExamples.UnderscoreFieldsWellFormed` | src/test/unit/java/cloud/metaapi/sdk/util/JsonMapperTest.java:171-176 | the two fields differ by name and by wire key, and travel as exactly `short` and `long` |
| `JsonMapperExamples.EncodeUnderscoreModel` | src/test/unit/java/cloud/metaapi/sdk/util/JsonMapperTest.java:171-176 | written through the field bindings: both primitive fields always, exactly under the keys `short` and `long` |
| `JsonMapperExamples.DecodeUnderscoreModel` | src/test/unit/java/cloud/metaapi/sdk/util/JsonMapperTest.java:171-189 | read through the field bindings: succeeds if and only if `short` and `long` are each absent, `null`, or a number in range for the Java type; the fields hold those numbers, 0 where absent or `null` |
| `JsonMapperExamples.UnderscoreModelRoundTrip` | src/test/unit/java/cloud/metaapi/sdk/util/JsonMapperTest.java:171-176 | every underscore model survives writing and reading back |
| `JsonMapperExamples.UnderscoreModelKeywordKeys` | src/test/unit/java/cloud/metaapi/sdk/util/JsonMapperTest.java:182-189 | `{"short": 42, "long": 12}` reads as `short_ = 42, long_ = 12` |
| `JsonMapperExamples.UnderscoreModelDefaults` | src/test/unit/java/cloud/metaapi/sdk/util/JsonMapperTest.java:171-176 | `{"long": 12}` and `{"short": null, "long": 12}` both read as `short_ = 0, long_ = 12` |
| `JsonMapperExamples.UnderscoreModelIgnoresFieldNames` | src/test/unit/java/cloud/metaapi/sdk/util/JsonMapperTest.java:171-176 | `{"short_": 42, "long_": 12}` fills no field and reads as `short_ = 0, long_ = 0` |

## Left out

- HTTP transport: `HttpClient.requestJson`, its retries, back-off and timeouts are not part of this model. Its behaviour is a function parameter applied to the client's transport handle and one request.
- `RetryOptions`: it is a type parameter forwarded verbatim, because its fields are never read by the core.
- Asynchrony: `CompletableFuture` is modelled as an immediate `Result`; completion order and threads are out of scope.
- JSON text: the model works on a JSON tree. Parsing, printing, whitespace and member order in the printed text are not modelled.
- JSON numbers are integers. The SDK's `Double` metrics fields and floating-point reading are not modelled.
- The `Metrics` class and its nested statistics classes: `metrics` is kept as a JSON tree. Only `CurrencySummaryMetrics` is modelled field by field, for its `short`/`long` wire keys.
- `null` elements inside a `List<Integer>` are not modelled. The list's elements are plain `int`.
- Untyped numbers: the model does not choose between `Integer`, `Long` and `BigInteger` by magnitude. It keeps one unbounded integer kind.
- A body that is JSON `null` makes the source throw a `NullPointerException` in `metrics.metrics`. The model reports this case as a decode error instead.
- The example program and the unit tests' mocking are not modelled.
- Null inclusion: encoders omit an absent optional field. Jackson's default writes it as `null`; `JsonMapper.java` may or may not change that, and it is not part of this model.
- Unknown members: decoders ignore members under undeclared keys. Jackson's default rejects them; the mapper's setting is not visible here.
- `JsonMapperExamples.DecodeEnumModel`: reading a by-name enum from its ordinal is not modelled. Jackson's default accepts the ordinal both as a JSON number (`0`) and as a string of digits (`"0"`), reading either as `SOME_VALUE`. Here a number under `field` is `WrongKind`, and `"0"` is `UnknownSymbol`.
- Null primitives: a missing or `null` primitive reads as 0, Jackson's default; a mapper set to fail on null primitives would reject the `null` case instead.
- Missing or `null` reference fields: the model reads them as `null`, as Jackson does by default; a mapper configured otherwise is not part of this model.
- Unknown enum identifiers: the model rejects them, as Jackson does by default for text that is neither a member's name nor a string of digits (for the digits, see the `DecodeEnumModel` line above); a mapper set to read them as `null` is not part of this model.
- Unknown `Version` tags: the model reads them as `null`, following `ofNumber`; the mapper could only change this by bypassing the `@JsonCreator`, which is not part of this model.
- `JsonCodec.DecodeInt16`, `JsonCodec.DecodeInt32`, `JsonCodec.DecodeInt64`, `JsonMapperExamples.DecodeInts` and `JsonMapperExamples.DecodeVersion`: reading a number from a JSON string (`"42"`), which Jackson's default scalar coercion accepts, is not modelled; a string where a number is expected is `WrongKind`.
- Java `null` arguments: the model's strings and options cannot be `null`. In the source a `null` domain gives the host `https://metastats-api-v1.null`, a `null` account id gives the URL `.../accounts/null/metrics`, a `null` token is sent as a `null` `auth-token` header value, and `null` connection options make the `MetaStats` constructor throw a `NullPointerException`.
- `JsonMapperExamples.DecodeEnumModel`: a JSON `null` root is a `WrongKind` error here; Jackson's `readValue` returns a Java `null` for it.
- `JsonMapperExamples.DecodeListModel`: a JSON `null` root is a `WrongKind` error here; Jackson's `readValue` returns a Java `null` for it.
- `JsonMapperExamples.DecodeMapModel`: a JSON `null` root is a `WrongKind` error here; Jackson's `readValue` returns a Java `null` for it.
- `JsonMapperExamples.DecodeUnderscoreModel`: a JSON `null` root is a `WrongKind` error here; Jackson's `readValue` returns a Java `null` for it.

=== FILE: java_int.dfy ===
/**
 The fixed-width integer types of Java that the modelled code relies on, and
 Java's wrapping `int` multiplication.
 */
module JavaInt {

  predicate IsInt16(x: int) { -0x8000 <= x < 0x8000 }

  predicate IsInt32(x: int) { -0x8000_0000 <= x < 0x8000_0000 }

  predicate IsInt64(x: int) { -0x8000_0000_0000_0000 <= x < 0x8000_0000_0000_0000 }

  /** Java `short`. */
  newtype int16 = x: int | IsInt16(x)

  /** Java `int`. */
  newtype int32 = x: int | IsInt32(x)

  /** Java `long`. */
  newtype int64 = x: int | IsInt64(x)

  /** The unique 32-bit two's-complement value congruent to `x` modulo 2^32. */
  function Wrap32(x: int): (r: int32)
    ensures (r as int - x) % 0x1_0000_0000 == 0
    ensures IsInt32(x) ==> r as int == x
  {
    ((x + 0x8000_0000) % 0x1_0000_0000 - 0x8000_0000) as int32
  }

  /** Java `a * b` on two `int`s: the product, silently wrapped to 32 bits. */
  function MulInt32(a: int32, b: int32): (r: int32)
    ensures (r as int - a as int * b as int) % 0x1_0000_0000 == 0
    ensures IsInt32(a as int * b as int) ==> r as int == a as int * b as int
  {
    Wrap32(a as int * b as int)
  }
}

=== FILE: json_codec.dfy ===
/**
 The JSON codec contracts the SDK relies on, stated over an abstract JSON tree
 rather than over any particular JSON library: how record fields are named on
 the wire, how primitive numbers are range-checked, and how an untyped
 `Map<String, Object>` infers each value's Java kind from the JSON node.
 */
module JsonCodec {
  import opened Wrappers
  import opened JavaInt

  /** A JSON document as a tree. Numbers are integers only; object members carry no order. */
  datatype Json =
    | JNull
    | JBool(b: bool)
    | JNumber(n: int)
    | JString(s: string)
    | JArray(items: seq<Json>)
    | JObject(members: map<string, Json>)

  /** Why a typed decode failed, with the wire keys leading to the offending node. */
  datatype DecodeError =
    | WrongKind(path: seq<string>)
    | OutOfRange(path: seq<string>, n: int)
    | UnknownSymbol(path: seq<string>, symbol: string)
    | MissingRequired(path: seq<string>)

  /**
   A declared record field: its name in the Java class and, when the field carries
   `@JsonProperty("...")`, the wire key that overrides that name.
   */
  datatype FieldBinding = FieldBinding(name: string, jsonProperty: Option<string>)

  /** The key a field is read from and written to: the override if declared, else the field's own name. */
  function WireKey(f: FieldBinding): (r: string)
    ensures f.jsonProperty.Some? ==> r == f.jsonProperty.value
    ensures f.jsonProperty.None? ==> r == f.name
  {
    match f.jsonProperty
    case Some(w) => w
    case None => f.name
  }

  /** No two fields of a record share a name, and no two share a wire key. */
  ghost predicate WellFormed(fs: seq<FieldBinding>) {
    forall i, j | 0 <= i < |fs| && 0 <= j < |fs| && i != j ::
      fs[i].name != fs[j].name && WireKey(fs[i]) != WireKey(fs[j])
  }

  function Names(fs: seq<FieldBinding>): set<string> {
    set i | 0 <= i < |fs| :: fs[i].name
  }

  function WireKeys(fs: seq<FieldBinding>): set<string> {
    set i | 0 <= i < |fs| :: WireKey(fs[i])
  }

  /** The position of the field read from wire key `key`, or -1 when no field is: a scan of the declarations. */
  function IndexOfWireKey(fs: seq<FieldBinding>, key: string): (r: int)
    ensures -1 <= r < |fs|
    ensures 0 <= r ==> WireKey(fs[r]) == key
    ensures r < 0 ==> forall i | 0 <= i < |fs| :: WireKey(fs[i]) != key
  {
    if |fs| == 0 then -1
    else if WireKey(fs[0]) == key then 0
    else
      var r := IndexOfWireKey(fs[1..], key);
      if r < 0 then -1 else r + 1
  }

  /** The position of the field named `name`, or -1 when no field is. */
  function IndexOfName(fs: seq<FieldBinding>, name: string): (r: int)
    ensures -1 <= r < |fs|
    ensures 0 <= r ==> fs[r].name == name
    ensures r < 0 ==> forall i | 0 <= i < |fs| :: fs[i].name != name
  {
    if |fs| == 0 then -1
    else if fs[0].name == name then 0
    else
      var r := IndexOfName(fs[1..], name);
      if r < 0 then -1 else r + 1
  }

  /** In a well-formed record, looking up a declared field by either name finds that field. */
  lemma LookupsAgree(fs: seq<FieldBinding>, i: int)
    requires WellFormed(fs)
    requires 0 <= i < |fs|
    ensures IndexOfWireKey(fs, WireKey(fs[i])) == i
    ensures IndexOfName(fs, fs[i].name) == i
  {
  }

  /**
   Encoding a record: the present fields (keyed by field name) become object
   members keyed by their wire keys.
   */
  function ToWire(fs: seq<FieldBinding>, record: map<string, Json>): (obj: map<string, Json>)
    requires WellFormed(fs)
    ensures forall i | 0 <= i < |fs| ::
      && (WireKey(fs[i]) in obj <==> fs[i].name in record)
      && (fs[i].name in record ==> obj[WireKey(fs[i])] == record[fs[i].name])
    ensures obj.Keys <= WireKeys(fs)
  {
    var obj := map k | k in WireKeys(fs) && 0 <= IndexOfWireKey(fs, k) && fs[IndexOfWireKey(fs, k)].name in record
      :: record[fs[IndexOfWireKey(fs, k)].name];
    forall i | 0 <= i < |fs| ensures WireKey(fs[i]) in obj <==> fs[i].name in record {
      LookupsAgree(fs, i);
    }
    obj
  }

  /**
   Decoding a record: each field whose wire key is a member is filled from that
   member; members under any other key are not read.
   */
  function FromWire(fs: seq<FieldBinding>, obj: map<string, Json>): (record: map<string, Json>)
    requires WellFormed(fs)
    ensures forall i | 0 <= i < |fs| ::
      && (fs[i].name in record <==> WireKey(fs[i]) in obj)
      && (WireKey(fs[i]) in obj ==> record[fs[i].name] == obj[WireKey(fs[i])])
    ensures record.Keys <= Names(fs)
  {
    var record := map n | n in Names(fs) && 0 <= IndexOfName(fs, n) && WireKey(fs[IndexOfName(fs, n)]) in obj
      :: obj[WireKey(fs[IndexOfName(fs, n)])];
    forall i | 0 <= i < |fs| ensures fs[i].name in record <==> WireKey(fs[i]) in obj {
      LookupsAgree(fs, i);
    }
    record
  }

  /** `m1` and `m2` hold the same keys of `keys`, with the same values. */
  ghost predicate AgreeOn(keys: set<string>, m1: map<string, Json>, m2: map<string, Json>) {
    forall k | k in keys :: (k in m1 <==> k in m2) && (k in m2 ==> m1[k] == m2[k])
  }

  /** Two maps whose keys lie in `keys` and which agree on every key of `keys` are equal. */
  lemma MapsAgreeOn(keys: set<string>, m1: map<string, Json>, m2: map<string, Json>)
    requires m1.Keys <= keys && m2.Keys <= keys
    requires AgreeOn(keys, m1, m2)
    ensures m1 == m2
  {
  }

  lemma FromWireToWireAt(fs: seq<FieldBinding>, record: map<string, Json>, n: string)
    requires WellFormed(fs)
    requires n in Names(fs)
    ensures var back := FromWire(fs, ToWire(fs, record));
      (n in back <==> n in record) && (n in record ==> back[n] == record[n])
  {
    var i :| 0 <= i < |fs| && fs[i].name == n;
  }

  lemma ToWireFromWireAt(fs: seq<FieldBinding>, obj: map<string, Json>, k: string)
    requires WellFormed(fs)
    requires k in WireKeys(fs)
    ensures var back := ToWire(fs, FromWire(fs, obj));
      (k in back <==> k in obj) && (k in obj ==> back[k] == obj[k])
  {
    var i :| 0 <= i < |fs| && WireKey(fs[i]) == k;
  }

  lemma FromWireToWireKeys(fs: seq<FieldBinding>, record: map<string, Json>)
    requires WellFormed(fs)
    ensures FromWire(fs, ToWire(fs, record)).Keys <= Names(fs)
  {
  }

  lemma ToWireFromWireKeys(fs: seq<FieldBinding>, obj: map<string, Json>)
    requires WellFormed(fs)
    ensures ToWire(fs, FromWire(fs, obj)).Keys <= WireKeys(fs)
  {
  }

  lemma FromWireToWirePointwise(fs: seq<FieldBinding>, record: map<string, Json>)
    requires WellFormed(fs)
    ensures AgreeOn(Names(fs), FromWire(fs, ToWire(fs, record)), record)
  {
    forall n | n in Names(fs)
      ensures && (n in FromWire(fs, ToWire(fs, record)) <==> n in record)
              && (n in record ==> FromWire(fs, ToWire(fs, record))[n] == record[n])
    {
      FromWireToWireAt(fs, record, n);
    }
  }

  lemma ToWireFromWirePointwise(fs: seq<FieldBinding>, obj: map<string, Json>)
    requires WellFormed(fs)
    ensures AgreeOn(WireKeys(fs), ToWire(fs, FromWire(fs, obj)), obj)
  {
    forall k | k in WireKeys(fs)
      ensures && (k in ToWire(fs, FromWire(fs, obj)) <==> k in obj)
              && (k in obj ==> ToWire(fs, FromWire(fs, obj))[k] == obj[k])
    {
      ToWireFromWireAt(fs, obj, k);
    }
  }

  /** Decoding what was encoded gives back every field, under its own name. */
  lemma FromWireToWire(fs: seq<FieldBinding>, record: map<string, Json>)
    requires WellFormed(fs)
    requires record.Keys <= Names(fs)
    ensures FromWire(fs, ToWire(fs, record)) == record
  {
    var back := FromWire(fs, ToWire(fs, record));
    FromWireToWirePointwise(fs, record);
    FromWireToWireKeys(fs, record);
    MapsAgreeOn(Names(fs), back, record);
  }

  /** Encoding what was decoded gives back every member whose key is a declared wire key. */
  lemma ToWireFromWire(fs: seq<FieldBinding>, obj: map<string, Json>)
    requires WellFormed(fs)
    requires obj.Keys <= WireKeys(fs)
    ensures ToWire(fs, FromWire(fs, obj)) == obj
  {
    var back := ToWire(fs, FromWire(fs, obj));
    ToWireFromWirePointwise(fs, obj);
    ToWireFromWireKeys(fs, obj);
    MapsAgreeOn(WireKeys(fs), back, obj);
  }

  /** A reference-typed field: absent and JSON `null` are both Java `null`. */
  function Present(record: map<string, Json>, name: string): Option<Json> {
    if name in record && record[name] != JNull then Some(record[name]) else None
  }

  /** A JSON number read into a Java `short`: a number outside its range is an error, not truncated. */
  function DecodeInt16(j: Json, path: seq<string>): (r: Result<int16, DecodeError>)
    ensures r.Success? <==> j.JNumber? && IsInt16(j.n)
    ensures r.Success? ==> r.value as int == j.n
    ensures !j.JNumber? ==> r == Failure(WrongKind(path))
    ensures j.JNumber? && !IsInt16(j.n) ==> r == Failure(OutOfRange(path, j.n))
  {
    match j
    case JNumber(n) => if IsInt16(n) then Success(n as int16) else Failure(OutOfRange(path, n))
    case _ => Failure(WrongKind(path))
  }

  /** A JSON number read into a Java `int`. */
  function DecodeInt32(j: Json, path: seq<string>): (r: Result<int32, DecodeError>)
    ensures r.Success? <==> j.JNumber? && IsInt32(j.n)
    ensures r.Success? ==> r.value as int == j.n
    ensures !j.JNumber? ==> r == Failure(WrongKind(path))
    ensures j.JNumber? && !IsInt32(j.n) ==> r == Failure(OutOfRange(path, j.n))
  {
    match j
    case JNumber(n) => if IsInt32(n) then Success(n as int32) else Failure(OutOfRange(path, n))
    case _ => Failure(WrongKind(path))
  }

  /** A JSON number read into a Java `long`. */
  function DecodeInt64(j: Json, path: seq<string>): (r: Result<int64, DecodeError>)
    ensures r.Success? <==> j.JNumber? && IsInt64(j.n)
    ensures r.Success? ==> r.value as int == j.n
    ensures !j.JNumber? ==> r == Failure(WrongKind(path))
    ensures j.JNumber? && !IsInt64(j.n) ==> r == Failure(OutOfRange(path, j.n))
  {
    match j
    case JNumber(n) => if IsInt64(n) then Success(n as int64) else Failure(OutOfRange(path, n))
    case _ => Failure(WrongKind(path))
  }

  /**
   The Java values an untyped `Object` can hold after decoding: `null`, `Boolean`,
   a number, `String`, `List<Object>` and `Map<String, Object>`.
   */
  datatype OpenValue =
    | ONull
    | OBool(b: bool)
    | ONumber(n: int)
    | OText(s: string)
    | OList(items: seq<OpenValue>)
    | OMap(entries: map<string, OpenValue>)

  /** The node and the value have the same kind, and containers have the same length or keys. */
  predicate SameKind(j: Json, v: OpenValue) {
    match j
    case JNull => v.ONull?
    case JBool(b) => v == OBool(b)
    case JNumber(n) => v == ONumber(n)
    case JString(s) => v == OText(s)
    case JArray(items) => v.OList? && |v.items| == |items|
    case JObject(m) => v.OMap? && v.entries.Keys == m.Keys
  }

  /**
   The node and the value have the same kind at every depth: array items
   correspond in order and object members correspond key by key.
   */
  predicate SameShape(j: Json, v: OpenValue) {
    && SameKind(j, v)
    && match j
       case JArray(items) => forall i | 0 <= i < |items| :: SameShape(items[i], v.items[i])
       case JObject(m) => forall k | k in m :: SameShape(m[k], v.entries[k])
       case _ => true
  }

  /** Decoding into an untyped value: the Java kind is chosen by the node's own kind, recursively. */
  function InferOpen(j: Json): (v: OpenValue)
    ensures SameShape(j, v)
  {
    match j
    case JNull => ONull
    case JBool(b) => OBool(b)
    case JNumber(n) => ONumber(n)
    case JString(s) => OText(s)
    case JArray(items) => OList(seq(|items|, i requires 0 <= i < |items| => InferOpen(items[i])))
    case JObject(m) => OMap(map k | k in m :: InferOpen(m[k]))
  }

  /** Encoding an untyped value: the node kind is chosen by the value's runtime kind, recursively. */
  function WriteOpen(v: OpenValue): (j: Json)
    ensures SameShape(j, v)
  {
    match v
    case ONull => JNull
    case OBool(b) => JBool(b)
    case ONumber(n) => JNumber(n)
    case OText(s) => JString(s)
    case OList(items) => JArray(seq(|items|, i requires 0 <= i < |items| => WriteOpen(items[i])))
    case OMap(m) => JObject(map k | k in m :: WriteOpen(m[k]))
  }

  /** Every untyped value survives an encode followed by a decode. */
  lemma {:induction false} InferWriteRoundTrip(v: OpenValue)
    ensures InferOpen(WriteOpen(v)) == v
  {
    match v
    case ONull =>
    case OBool(_) =>
    case ONumber(_) =>
    case OText(_) =>
    case OList(items) =>
      var back := InferOpen(WriteOpen(v)).items;
      forall i | 0 <= i < |items| ensures back[i] == items[i] {
        InferWriteRoundTrip(items[i]);
      }
    case OMap(m) =>
      var back := InferOpen(WriteOpen(v)).entries;
      forall k | k in m ensures back[k] == m[k] {
        InferWriteRoundTrip(m[k]);
      }
  }

  /** Every JSON tree survives a decode into an untyped value followed by an encode. */
  lemma {:induction false} WriteInferRoundTrip(j: Json)
    ensures WriteOpen(InferOpen(j)) == j
  {
    match j
    case JNull =>
    case JBool(_) =>
    case JNumber(_) =>
    case JString(_) =>
    case JArray(items) =>
      var back := WriteOpen(InferOpen(j)).items;
      forall i | 0 <= i < |items| ensures back[i] == items[i] {
        WriteInferRoundTrip(items[i]);
      }
    case JObject(m) =>
      var back := WriteOpen(InferOpen(j)).members;
      forall k | k in m ensures back[k] == m[k] {
        WriteInferRoundTrip(m[k]);
      }
  }
}

=== FILE: json_mapper_examples.dfy ===
/**
 The small models whose JSON mapping the SDK's codec tests pin down: a by-name
 enum, a list of `Integer`, the numerically tagged `Version` enum, an untyped
 `Map<String, Object>` and a record whose fields are named after Java keywords.
 Each record encodes to, and decodes from, a `JsonCodec.Json` object through its
 declared field bindings.
 */
module JsonMapperExamples {
  import opened Wrappers
  import opened JavaInt
  import opened JsonCodec

  // ---------------------------------------------------------------------------
  // Version: an enum serialized by its numeric tag

  /** MetaTrader version, in declaration order `VERSION_4`, `VERSION_5`. */
  datatype Version = Version4 | Version5

  /** The members in declaration order, as `Version.values()` lists them. */
  const Versions: seq<Version> := [Version4, Version5]

  /** `getNumber`: the integer tag each member was declared with. */
  function GetNumber(v: Version): (r: int32)
    ensures 4 <= r as int < 4 + |Versions|
    ensures Versions[r as int - 4] == v
  {
    match v
    case Version4 => 4
    case Version5 => 5
  }

  lemma AllVersionsListed()
    ensures forall v: Version :: v in Versions
    ensures forall n: int32 :: Scan(Versions, n).None? ==> forall v: Version :: GetNumber(v) != n
  {
    forall v: Version ensures v in Versions {
      match v
      case Version4 => assert Versions[0] == v;
      case Version5 => assert Versions[1] == v;
    }
  }

  /** The first of `members` whose tag is `n`, or `None` when none carries it. */
  function Scan(members: seq<Version>, n: int32): (r: Option<Version>)
    ensures r.Some? ==> r.value in members && GetNumber(r.value) == n
    ensures r.None? ==> forall i :: 0 <= i < |members| ==> GetNumber(members[i]) != n
  {
    if |members| == 0 then None
    else if GetNumber(members[0]) == n then Some(members[0])
    else Scan(members[1..], n)
  }

  /** `ofNumber`: the member carrying tag `n`, or `null` (`None`) when there is none. */
  function OfNumber(n: int32): (r: Option<Version>)
    ensures r.Some? ==> GetNumber(r.value) == n
    ensures r.None? <==> forall v: Version :: GetNumber(v) != n
  {
    AllVersionsListed();
    Scan(Versions, n)
  }

  /** Distinct members carry distinct tags. */
  ghost predicate TagsDistinct(members: seq<Version>) {
    forall i, j | 0 <= i < |members| && 0 <= j < |members| && i != j ::
      GetNumber(members[i]) != GetNumber(members[j])
  }

  /** Scanning a list of distinctly tagged members for the tag of one of them finds exactly that one. */
  lemma {:induction false} ScanFindsMember(members: seq<Version>, v: Version)
    requires TagsDistinct(members)
    requires v in members
    ensures Scan(members, GetNumber(v)) == Some(v)
  {
    if members[0] != v {
      assert v in members[1..];
      assert GetNumber(members[0]) != GetNumber(v) by {
        var k :| 0 <= k < |members| && members[k] == v;
        assert k != 0;
      }
      assert TagsDistinct(members[1..]) by {
        forall i, j | 0 <= i < |members[1..]| && 0 <= j < |members[1..]| && i != j
          ensures GetNumber(members[1..][i]) != GetNumber(members[1..][j])
        {
          assert members[1..][i] == members[i + 1] && members[1..][j] == members[j + 1];
        }
      }
      ScanFindsMember(members[1..], v);
    }
  }

  /** `ofNumber(v.getNumber()) == v` for every member. */
  lemma OfNumberGetNumber(v: Version)
    ensures OfNumber(GetNumber(v)) == Some(v)
  {
    assert v in Versions;
    ScanFindsMember(Versions, v);
  }

  /** `ofNumber` is a partial inverse of `getNumber`: whatever it finds carries the tag asked for. */
  lemma GetNumberOfNumber(n: int32)
    ensures OfNumber(n).Some? ==> GetNumber(OfNumber(n).value) == n
    ensures OfNumber(n).None? <==> n != 4 && n != 5
  {
    if n == 4 { OfNumberGetNumber(Version4); }
    if n == 5 { OfNumberGetNumber(Version5); }
  }

  /** A numerically tagged enum is written as its tag. */
  function EncodeVersion(v: Version): (j: Json)
    ensures j.JNumber? && j.n == GetNumber(v) as int
  {
    JNumber(GetNumber(v) as int)
  }

  /**
   Reading a `Version` goes through `ofNumber`: an unknown tag gives `null`, not an
   error; JSON `null` gives `null`; a number outside `int` or a non-number is an error.
   */
  function DecodeVersion(j: Json): (r: Result<Option<Version>, DecodeError>)
    ensures j.JNull? ==> r == Success(None)
    ensures r.Success? ==> j.JNull? || (j.JNumber? && IsInt32(j.n))
    ensures j.JNumber? && IsInt32(j.n) ==> r == Success(OfNumber(j.n as int32))
  {
    match j
    case JNull => Success(None)
    case _ =>
      match DecodeInt32(j, [])
      case Success(n) => Success(OfNumber(n))
      case Failure(e) => Failure(e)
  }

  /** Every member survives writing and reading back; `VERSION_4` is written as `4`. */
  lemma VersionRoundTrip(v: Version)
    ensures DecodeVersion(EncodeVersion(v)) == Success(Some(v))
    ensures EncodeVersion(Version4) == JNumber(4)
  {
    OfNumberGetNumber(v);
  }

  /** A number that is no member's tag reads as `null` rather than failing. */
  lemma UnknownTagIsNull(n: int)
    requires IsInt32(n) && n != 4 && n != 5
    ensures DecodeVersion(JNumber(n)) == Success(None)
  {
    GetNumberOfNumber(n as int32);
  }

  // ---------------------------------------------------------------------------
  // EnumModelExample: an enum serialized by its identifier

  datatype ExampleEnum = SomeValue

  /** The identifier a by-name enum is written as. */
  function ExampleEnumName(e: ExampleEnum): string {
    match e
    case SomeValue => "SOME_VALUE"
  }

  /** Case-sensitive match of an identifier against the declared members. */
  function ExampleEnumByName(s: string): (r: Option<ExampleEnum>)
    ensures r.Some? <==> exists e: ExampleEnum :: ExampleEnumName(e) == s
    ensures r.Some? ==> ExampleEnumName(r.value) == s
  {
    assert ExampleEnumName(SomeValue) == "SOME_VALUE";
    if s == "SOME_VALUE" then Some(SomeValue) else None
  }

  datatype EnumModelExample = EnumModelExample(field: Option<ExampleEnum>)

  const EnumField := FieldBinding("field", None)

  /** An absent enum is omitted; a present one is written as its identifier. */
  function EncodeEnumModel(m: EnumModelExample): (j: Json)
    ensures j.JObject?
    ensures m.field.Some? <==> "field" in j.members
    ensures m.field.Some? ==> j.members["field"] == JString(ExampleEnumName(m.field.value))
  {
    match m.field
    case Some(e) => JObject(map[WireKey(EnumField) := JString(ExampleEnumName(e))])
    case None => JObject(map[])
  }

  /** An unmatched identifier or a non-string is an error; absent or `null` is `null`. */
  function DecodeEnumModel(j: Json): (r: Result<EnumModelExample, DecodeError>)
    ensures r.Success? <==> (j.JObject? && (Present(j.members, "field").None?
      || (j.members["field"].JString? && ExampleEnumByName(j.members["field"].s).Some?)))
    ensures r.Success? ==> (r.value.field ==
      (if Present(j.members, "field").None? then None else ExampleEnumByName(j.members["field"].s)))
  {
    match j
    case JObject(members) =>
      (match Present(members, WireKey(EnumField))
       case None => Success(EnumModelExample(None))
       case Some(JString(s)) =>
         (match ExampleEnumByName(s)
          case Some(e) => Success(EnumModelExample(Some(e)))
          case None => Failure(UnknownSymbol([WireKey(EnumField)], s)))
       case Some(_) => Failure(WrongKind([WireKey(EnumField)])))
    case _ => Failure(WrongKind([]))
  }

  lemma EnumModelRoundTrip(m: EnumModelExample)
    ensures DecodeEnumModel(EncodeEnumModel(m)) == Success(m)
  {
    assert WireKey(EnumField) == "field";
    match m.field
    case Some(e) =>
      assert e == SomeValue && ExampleEnumName(e) == "SOME_VALUE";
    case None =>
  }

  /** `{"field": "SOME_VALUE"}` reads as `SOME_VALUE`, and the model writes that text node back. */
  lemma EnumModelByName()
    ensures DecodeEnumModel(JObject(map["field" := JString("SOME_VALUE")]))
      == Success(EnumModelExample(Some(SomeValue)))
    ensures EncodeEnumModel(EnumModelExample(Some(SomeValue))).members["field"] == JString("SOME_VALUE")
  {
  }

  // ---------------------------------------------------------------------------
  // ListModelExample: a list of Integer, order preserved both ways

  datatype ListModelExample = ListModelExample(list: Option<seq<int32>>)

  const ListField := FieldBinding("list", None)

  function EncodeInts(xs: seq<int32>): (items: seq<Json>)
    ensures |items| == |xs|
    ensures forall i :: 0 <= i < |xs| ==> items[i] == JNumber(xs[i] as int)
  {
    seq(|xs|, i requires 0 <= i < |xs| => JNumber(xs[i] as int))
  }

  /** Reads a JSON array into a list of `int`, element by element, in order. */
  function DecodeInts(items: seq<Json>, path: seq<string>): (r: Result<seq<int32>, DecodeError>)
    ensures r.Success? <==> forall i :: 0 <= i < |items| ==> items[i].JNumber? && IsInt32(items[i].n)
    ensures r.Success? ==> |r.value| == |items|
    ensures r.Success? ==> forall i :: 0 <= i < |items| ==> r.value[i] as int == items[i].n
  {
    if |items| == 0 then Success([])
    else
      match DecodeInt32(items[0], path)
      case Failure(e) => Failure(e)
      case Success(x) =>
        match DecodeInts(items[1..], path)
        case Failure(e) => Failure(e)
        case Success(rest) => Success([x] + rest)
  }

  function EncodeListModel(m: ListModelExample): (j: Json)
    ensures j.JObject?
    ensures m.list.Some? <==> "list" in j.members
    ensures m.list.Some? ==> j.members["list"] == JArray(EncodeInts(m.list.value))
  {
    match m.list
    case Some(xs) => JObject(map[WireKey(ListField) := JArray(EncodeInts(xs))])
    case None => JObject(map[])
  }

  function DecodeListModel(j: Json): (r: Result<ListModelExample, DecodeError>)
    ensures r.Success? && r.value.list.Some? ==>
      j.JObject? && "list" in j.members && j.members["list"].JArray?
      && |j.members["list"].items| == |r.value.list.value|
      && forall i :: 0 <= i < |r.value.list.value| ==>
           j.members["list"].items[i] == JNumber(r.value.list.value[i] as int)
    ensures r.Success? <==> (j.JObject? && (Present(j.members, "list").None?
      || (j.members["list"].JArray? && forall i :: 0 <= i < |j.members["list"].items| ==>
            j.members["list"].items[i].JNumber? && IsInt32(j.members["list"].items[i].n))))
    ensures r.Success? ==> (r.value.list.None? <==> Present(j.members, "list").None?)
  {
    match j
    case JObject(members) =>
      (match Present(members, WireKey(ListField))
       case None => Success(ListModelExample(None))
       case Some(JArray(items)) =>
         (match DecodeInts(items, [WireKey(ListField)])
          case Success(xs) => Success(ListModelExample(Some(xs)))
          case Failure(e) => Failure(e))
       case Some(_) => Failure(WrongKind([WireKey(ListField)])))
    case _ => Failure(WrongKind([]))
  }

  /** Every list model survives writing and reading back, element order included. */
  lemma ListModelRoundTrip(m: ListModelExample)
    ensures DecodeListModel(EncodeListModel(m)) == Success(m)
  {
    assert WireKey(ListField) == "list";
    match m.list
    case None =>
    case Some(xs) =>
      var r := DecodeInts(EncodeInts(xs), ["list"]);
      assert r.Success?;
      assert r.value == xs;
  }

  /** `{"list": [28, 42]}` reads as the list 28, 42 and is written back as that array. */
  lemma ListModelExampleValues()
    ensures DecodeListModel(JObject(map["list" := JArray([JNumber(28), JNumber(42)])]))
      == Success(ListModelExample(Some([28, 42])))
    ensures EncodeListModel(ListModelExample(Some([28, 42])))
      == JObject(map["list" := JArray([JNumber(28), JNumber(42)])])
  {
    ListModelRoundTrip(ListModelExample(Some([28, 42])));
    assert EncodeInts([28, 42]) == [JNumber(28), JNumber(42)];
  }

  // ---------------------------------------------------------------------------
  // MapModel: an untyped Map<String, Object>

  datatype MapModel = MapModel(data: Option<map<string, OpenValue>>)

  const DataField := FieldBinding("data", None)

  /** Each entry is written by the runtime kind of the value it holds. */
  function EncodeMapModel(m: MapModel): (j: Json)
    ensures j.JObject?
    ensures m.data.Some? <==> "data" in j.members
    ensures m.data.Some? ==> (j.members["data"].JObject?
      && j.members["data"].members.Keys == m.data.value.Keys
      && forall k :: k in m.data.value ==> SameShape(j.members["data"].members[k], m.data.value[k]))
  {
    match m.data
    case Some(d) => JObject(map[WireKey(DataField) := WriteOpen(OMap(d))])
    case None => JObject(map[])
  }

  /** Each entry's Java kind is inferred from its own node; a non-object `data` is an error. */
  function DecodeMapModel(j: Json): (r: Result<MapModel, DecodeError>)
    ensures r.Success? && r.value.data.Some? ==>
      j.JObject? && "data" in j.members && j.members["data"].JObject?
      && r.value.data.value.Keys == j.members["data"].members.Keys
      && forall k :: k in r.value.data.value ==> SameShape(j.members["data"].members[k], r.value.data.value[k])
    ensures r.Success? <==> j.JObject? && (Present(j.members, "data").None? || j.members["data"].JObject?)
    ensures r.Success? ==> (r.value.data.None? <==> Present(j.members, "data").None?)
    ensures r.Success? && r.value.data.Some? ==> WriteOpen(OMap(r.value.data.value)) == j.members["data"]
  {
    match j
    case JObject(members) =>
      (match Present(members, WireKey(DataField))
       case None => Success(MapModel(None))
       case Some(JObject(d)) =>
         WriteInferRoundTrip(JObject(d));
         Success(MapModel(Some(InferOpen(JObject(d)).entries)))
       case Some(_) => Failure(WrongKind([WireKey(DataField)])))
    case _ => Failure(WrongKind([]))
  }

  /** Decoding the encoding of an untyped map yields the original map. */
  lemma MapModelRoundTrip(m: MapModel)
    ensures DecodeMapModel(EncodeMapModel(m)) == Success(m)
  {
    assert WireKey(DataField) == "data";
    match m.data
    case None =>
    case Some(d) => InferWriteRoundTrip(OMap(d));
  }

  /** The map `a -> 42, b -> "Hello", children -> [{c -> 3000}]` and its JSON tree, both ways. */
  lemma MapModelExampleValues()
    ensures var child := map["c" := ONumber(3000)];
      var data := map["a" := ONumber(42), "b" := OText("Hello"), "children" := OList([OMap(child)])];
      var json := JObject(map["data" := JObject(map[
        "a" := JNumber(42), "b" := JString("Hello"),
        "children" := JArray([JObject(map["c" := JNumber(3000)])])])]);
      EncodeMapModel(MapModel(Some(data))) == json
      && DecodeMapModel(json) == Success(MapModel(Some(data)))
  {
    var child := map["c" := ONumber(3000)];
    var data := map["a" := ONumber(42), "b" := OText("Hello"), "children" := OList([OMap(child)])];
    MapModelExampleWritten();
    MapModelRoundTrip(MapModel(Some(data)));
  }

  /** The `children` entry of the test's example: a list holding one map. */
  lemma MapModelExampleChildrenWritten()
    ensures WriteOpen(OList([OMap(map["c" := ONumber(3000)])])) == JArray([JObject(map["c" := JNumber(3000)])])
  {
    var child := map["c" := ONumber(3000)];
    var childJson := JObject(map["c" := JNumber(3000)]);
    assert WriteOpen(OMap(child)) == childJson;
  }

  /** The untyped map of the test's example is written as the JSON object it expects. */
  lemma MapModelExampleWritten()
    ensures WriteOpen(OMap(map["a" := ONumber(42), "b" := OText("Hello"),
        "children" := OList([OMap(map["c" := ONumber(3000)])])]))
      == JObject(map["a" := JNumber(42), "b" := JString("Hello"),
        "children" := JArray([JObject(map["c" := JNumber(3000)])])])
  {
    var child := map["c" := ONumber(3000)];
    var data := map["a" := ONumber(42), "b" := OText("Hello"), "children" := OList([OMap(child)])];
    var childJson := JObject(map["c" := JNumber(3000)]);
    MapModelExampleChildrenWritten();
    var dataJson := map["a" := JNumber(42), "b" := JString("Hello"), "children" := JArray([childJson])];
    var written := WriteOpen(OMap(data)).members;
    assert written.Keys == dataJson.Keys;
    assert written["a"] == dataJson["a"] && written["b"] == dataJson["b"];
    assert written["children"] == dataJson["children"];
    assert written == dataJson;
  }

  // ---------------------------------------------------------------------------
  // UnderscoreModel: fields named after Java keywords

  /** `short short_` and `long long_`, read from and written to the keys `short` and `long`. */
  datatype UnderscoreModel = UnderscoreModel(short_: int16, long_: int64)

  const ShortField := FieldBinding("short_", Some("short"))
  const LongField := FieldBinding("long_", Some("long"))
  const UnderscoreFields: seq<FieldBinding> := [ShortField, LongField]

  /** The two fields are distinct by name and by wire key; their wire keys are the overrides. */
  lemma UnderscoreFieldsWellFormed()
    ensures WellFormed(UnderscoreFields)
    ensures WireKeys(UnderscoreFields) == {"short", "long"}
    ensures WireKey(UnderscoreFields[0]) == "short" && WireKey(UnderscoreFields[1]) == "long"
  {
    var fs := UnderscoreFields;
    assert WireKey(fs[0]) == "short" && WireKey(fs[1]) == "long";
    assert fs[0].name[0] != fs[1].name[0];
    assert WireKeys(fs) == {"short", "long"} by {
      assert WireKey(fs[0]) in WireKeys(fs) && WireKey(fs[1]) in WireKeys(fs);
    }
  }

  /**
   A primitive field read from a member: absent or `null` leaves Java's default 0,
   a number is range-checked.
   */
  function DecodeShortField(v: Option<Json>, path: seq<string>): (r: Result<int16, DecodeError>)
    ensures v.None? ==> r == Success(0)
    ensures v.Some? ==> r == DecodeInt16(v.value, path)
  {
    match v
    case None => Success(0)
    case Some(j) => DecodeInt16(j, path)
  }

  function DecodeLongField(v: Option<Json>, path: seq<string>): (r: Result<int64, DecodeError>)
    ensures v.None? ==> r == Success(0)
    ensures v.Some? ==> r == DecodeInt64(v.value, path)
  {
    match v
    case None => Success(0)
    case Some(j) => DecodeInt64(j, path)
  }

  /** A member that a primitive `short` field accepts: absent, `null`, or a number in range. */
  predicate ShortAccepts(members: map<string, Json>, key: string) {
    Present(members, key).None? || (members[key].JNumber? && IsInt16(members[key].n))
  }

  predicate LongAccepts(members: map<string, Json>, key: string) {
    Present(members, key).None? || (members[key].JNumber? && IsInt64(members[key].n))
  }

  /** The value a primitive field takes from a member it accepts: 0 when absent or `null`. */
  function ValueOrZero(members: map<string, Json>, key: string): int
    requires Present(members, key).Some? ==> members[key].JNumber?
  {
    if Present(members, key).None? then 0 else members[key].n
  }

  /** Both primitive fields are always written, under their overriding wire keys. */
  function EncodeUnderscoreModel(m: UnderscoreModel): (j: Json)
    ensures j.JObject? && j.members.Keys == {"short", "long"}
    ensures j.members["short"] == JNumber(m.short_ as int) && j.members["long"] == JNumber(m.long_ as int)
  {
    UnderscoreFieldsWellFormed();
    var record := map["short_" := JNumber(m.short_ as int), "long_" := JNumber(m.long_ as int)];
    var obj := ToWire(UnderscoreFields, record);
    assert UnderscoreFields[0].name == "short_" && UnderscoreFields[1].name == "long_";
    assert "short" in obj && "long" in obj;
    JObject(obj)
  }

  /**
   Reads `short_` from the key `short` and `long_` from the key `long`. A member that
   is absent or `null` leaves the field 0; a non-number or a number outside the Java
   type is an error; members under other keys are not read.
   */
  function DecodeUnderscoreModel(j: Json): (r: Result<UnderscoreModel, DecodeError>)
    ensures r.Success? <==> (j.JObject? && ShortAccepts(j.members, "short") && LongAccepts(j.members, "long"))
    ensures r.Success? ==>
      && r.value.short_ as int == ValueOrZero(j.members, "short")
      && r.value.long_ as int == ValueOrZero(j.members, "long")
  {
    match j
    case JObject(members) =>
      UnderscoreFieldsWellFormed();
      var record := FromWire(UnderscoreFields, members);
      assert UnderscoreFields[0].name == "short_" && UnderscoreFields[1].name == "long_";
      assert Present(record, "short_") == Present(members, "short");
      assert Present(record, "long_") == Present(members, "long");
      (match (DecodeShortField(Present(record, "short_"), ["short"]),
              DecodeLongField(Present(record, "long_"), ["long"]))
       case (Success(s), Success(l)) => Success(UnderscoreModel(s, l))
       case (Failure(e), _) => Failure(e)
       case (_, Failure(e)) => Failure(e))
    case _ => Failure(WrongKind([]))
  }

  lemma UnderscoreModelRoundTrip(m: UnderscoreModel)
    ensures DecodeUnderscoreModel(EncodeUnderscoreModel(m)) == Success(m)
  {
    var j := EncodeUnderscoreModel(m);
    assert Present(j.members, "short") == Some(JNumber(m.short_ as int));
    assert Present(j.members, "long") == Some(JNumber(m.long_ as int));
    assert ShortAccepts(j.members, "short") && LongAccepts(j.members, "long");
    var r := DecodeUnderscoreModel(j);
    assert r.value.short_ == m.short_ && r.value.long_ == m.long_;
  }

  /** `{"short": 42, "long": 12}` reads as `short_ = 42, long_ = 12`, the test's own example. */
  lemma UnderscoreModelKeywordKeys()
    ensures DecodeUnderscoreModel(JObject(map["short" := JNumber(42), "long" := JNumber(12)]))
      == Success(UnderscoreModel(42, 12))
  {
    var members := map["short" := JNumber(42), "long" := JNumber(12)];
    assert Present(members, "short") == Some(JNumber(42)) && Present(members, "long") == Some(JNumber(12));
    assert ValueOrZero(members, "short") == 42 && ValueOrZero(members, "long") == 12;
  }

  /** A missing or `null` member leaves its field at Java's default 0. */
  lemma UnderscoreModelDefaults()
    ensures DecodeUnderscoreModel(JObject(map["long" := JNumber(12)])) == Success(UnderscoreModel(0, 12))
    ensures DecodeUnderscoreModel(JObject(map["short" := JNull, "long" := JNumber(12)]))
      == Success(UnderscoreModel(0, 12))
  {
    var m1 := map["long" := JNumber(12)];
    assert Present(m1, "short") == None && Present(m1, "long") == Some(JNumber(12));
    assert ValueOrZero(m1, "short") == 0 && ValueOrZero(m1, "long") == 12;
    var m2 := map["short" := JNull, "long" := JNumber(12)];
    assert Present(m2, "short") == None && Present(m2, "long") == Some(JNumber(12));
    assert ValueOrZero(m2, "short") == 0 && ValueOrZero(m2, "long") == 12;
  }

  /** Members spelled like the Java field names, `short_` and `long_`, fill nothing. */
  lemma UnderscoreModelIgnoresFieldNames()
    ensures DecodeUnderscoreModel(JObject(map["short_" := JNumber(42), "long_" := JNumber(12)]))
      == Success(UnderscoreModel(0, 0))
  {
    var members := map["short_" := JNumber(42), "long_" := JNumber(12)];
    assert "short" !in members && "long" !in members;
    assert Present(members, "short") == None && Present(members, "long") == None;
  }
}

=== FILE: meta_stats.dfy ===
/**
 `MetaStats`: the SDK entry point. It turns connection options given in seconds
 into a transport configured in milliseconds, builds the client for the chosen
 domain, and forwards the two `getMetrics` overloads to it.

 The retry options are a type parameter `R`: they are handed to the transport
 untouched and nothing here looks inside them. The transport's behaviour is a
 function parameter applied to the configured `HttpClient` and the request.
 */
module MetaStats {
  import opened Wrappers
  import opened JavaInt
  import opened JsonCodec
  import MetaStatsClient

  /** `ConnectionOptions`: timeouts in seconds (Java `int`), the domain and the retry options. */
  datatype ConnectionOptions<R> = ConnectionOptions(
    requestTimeout: int32,
    connectTimeout: int32,
    domain: string,
    retryOpts: R)

  /** The transport as configured: timeouts in milliseconds (Java `int`) and the retry options. */
  datatype HttpClient<R> = HttpClient(requestTimeoutMs: int32, connectTimeoutMs: int32, retryOpts: R)

  /** An SDK instance: the one client it owns. */
  datatype Sdk<R> = Sdk(client: MetaStatsClient.Client<HttpClient<R>>)

  /** `new ConnectionOptions()`: both timeouts 60 seconds and the default domain. */
  function DefaultConnectionOptions<R>(retryDefaults: R): (opts: ConnectionOptions<R>)
    ensures opts.requestTimeout == 60 && opts.connectTimeout == 60
    ensures opts.domain == "agiliumtrade.agiliumtrade.ai"
    ensures opts.retryOpts == retryDefaults
  {
    ConnectionOptions(60, 60, MetaStatsClient.DefaultDomain, retryDefaults)
  }

  /**
   `new MetaStats(token, opts)`: each timeout is multiplied by 1000 in Java `int`
   arithmetic, so a value beyond 2147483 seconds wraps around modulo 2^32.
   */
  function New<R>(token: string, opts: ConnectionOptions<R>): (s: Sdk<R>)
    ensures (s.client.httpClient.requestTimeoutMs as int - opts.requestTimeout as int * 1000) % 0x1_0000_0000 == 0
    ensures (s.client.httpClient.connectTimeoutMs as int - opts.connectTimeout as int * 1000) % 0x1_0000_0000 == 0
    ensures s.client.httpClient.retryOpts == opts.retryOpts
    ensures s.client.token == token
    ensures MetaStatsClient.DomainOfHost(s.client.host) == Some(opts.domain)
  {
    var httpClient := HttpClient(MulInt32(opts.requestTimeout, 1000), MulInt32(opts.connectTimeout, 1000), opts.retryOpts);
    Sdk(MetaStatsClient.NewClient(httpClient, token, opts.domain))
  }

  /** `new MetaStats(token)`: the two-argument constructor with default options. */
  function NewWithDefaults<R>(token: string, retryDefaults: R): (s: Sdk<R>)
    ensures s == New(token, DefaultConnectionOptions(retryDefaults))
    ensures s.client.httpClient == HttpClient(60000, 60000, retryDefaults)
    ensures MetaStatsClient.DomainOfHost(s.client.host) == Some("agiliumtrade.agiliumtrade.ai")
  {
    New(token, DefaultConnectionOptions(retryDefaults))
  }

  /** Timeouts up to 2147483 seconds in magnitude reach the transport as exact millisecond counts. */
  lemma TimeoutsExact<R>(token: string, opts: ConnectionOptions<R>)
    requires -2147483 <= opts.requestTimeout as int <= 2147483
    requires -2147483 <= opts.connectTimeout as int <= 2147483
    ensures New(token, opts).client.httpClient.requestTimeoutMs as int == opts.requestTimeout as int * 1000
    ensures New(token, opts).client.httpClient.connectTimeoutMs as int == opts.connectTimeout as int * 1000
  {
  }

  /** One second past 2147483 the Java product overflows: the transport is told a negative timeout. */
  lemma TimeoutOverflows<R>(token: string, opts: ConnectionOptions<R>)
    requires opts.requestTimeout == 2147484
    ensures New(token, opts).client.httpClient.requestTimeoutMs == -2147483296
  {
  }

  /** `getMetrics(accountId)`: the client's call with open positions excluded. */
  function GetMetrics<R, M, E>(
    s: Sdk<R>, accountId: string,
    requestJson: (HttpClient<R>, MetaStatsClient.HttpRequestOptions) -> Result<MetaStatsClient.MetricsResponse<M>, E>)
    : (r: Result<Option<M>, E>)
    ensures r == MetaStatsClient.GetMetrics(s.client, accountId, false, requestJson)
  {
    MetaStatsClient.GetMetrics(s.client, accountId, false, requestJson)
  }

  /** `getMetrics(accountId, includeOpenPositions)`: the client's call with the same arguments. */
  function GetMetricsIncluding<R, M, E>(
    s: Sdk<R>, accountId: string, includeOpenPositions: bool,
    requestJson: (HttpClient<R>, MetaStatsClient.HttpRequestOptions) -> Result<MetaStatsClient.MetricsResponse<M>, E>)
    : (r: Result<Option<M>, E>)
    ensures r == MetaStatsClient.GetMetrics(s.client, accountId, includeOpenPositions, requestJson)
  {
    MetaStatsClient.GetMetrics(s.client, accountId, includeOpenPositions, requestJson)
  }

  /** The one-argument overload is the two-argument one with `false`. */
  lemma GetMetricsExcludesOpenPositions<R, M, E>(
    s: Sdk<R>, accountId: string,
    requestJson: (HttpClient<R>, MetaStatsClient.HttpRequestOptions) -> Result<MetaStatsClient.MetricsResponse<M>, E>)
    ensures GetMetrics(s, accountId, requestJson) == GetMetricsIncluding(s, accountId, false, requestJson)
  {
  }

  /**
   The request an SDK built with options `opts` hands to its transport: a GET of the
   metrics URL under the options' domain, carrying the flag and the token.
   */
  lemma SdkMetricsRequest<R>(token: string, opts: ConnectionOptions<R>, accountId: string, includeOpenPositions: bool)
    ensures var req := MetaStatsClient.MetricsRequestOptions(New(token, opts).client, accountId, includeOpenPositions);
      && req.url == MetaStatsClient.HostPrefix + opts.domain + "/users/current/accounts/" + accountId + "/metrics"
      && req.httpMethod == MetaStatsClient.Get
      && req.queryParameters == map["includeOpenPositions" := JBool(includeOpenPositions)]
      && req.headers == map["auth-token" := token]
  {
  }

  /**
   Every metrics call of an SDK built with options `opts` goes through the transport
   configured from those options: timeouts times 1000 in Java `int` arithmetic,
   request timeout first, and the retry options as given.
   */
  lemma SdkUsesConfiguredTransport<R, M, E>(
    token: string, opts: ConnectionOptions<R>, accountId: string, includeOpenPositions: bool,
    requestJson: (HttpClient<R>, MetaStatsClient.HttpRequestOptions) -> Result<MetaStatsClient.MetricsResponse<M>, E>)
    ensures var s := New(token, opts);
      var transport := HttpClient(MulInt32(opts.requestTimeout, 1000), MulInt32(opts.connectTimeout, 1000), opts.retryOpts);
      var answer := requestJson(transport, MetaStatsClient.MetricsRequestOptions(s.client, accountId, includeOpenPositions));
      var r := GetMetricsIncluding(s, accountId, includeOpenPositions, requestJson);
      && (r.Failure? <==> answer.Failure?)
      && (r.Failure? ==> r.error == answer.error)
      && (r.Success? ==> r.value == answer.value.metrics)
  {
  }
}

=== FILE: meta_stats_client.dfy ===
/**
 `MetaStatsClient`: forms the service host from a domain, describes the one
 HTTP request that fetches an account's metrics, and unwraps the `metrics`
 field of the decoded response envelope. The HTTP transport's behaviour is a
 function parameter: it is applied to the client's own transport handle and the
 request description, and answers with the decoded envelope or a failure.
 */
module MetaStatsClient {
  import opened Wrappers
  import opened JsonCodec

  const DefaultDomain: string := "agiliumtrade.agiliumtrade.ai"
  const HostPrefix: string := "https://metastats-api-v1."
  const AccountsPath: string := "/users/current/accounts/"
  const MetricsPath: string := "/metrics"
  const IncludeOpenPositionsParameter: string := "includeOpenPositions"
  const AuthTokenHeader: string := "auth-token"

  /** A client: the transport handle it was given, the host it targets and the token it sends. */
  datatype Client<H> = Client(httpClient: H, host: string, token: string)

  /** The domain a host was formed from, or `None` when the host lacks the service prefix. */
  function DomainOfHost(host: string): (r: Option<string>)
    ensures r.Some? <==> HostPrefix <= host
    ensures r.Some? ==> host == HostPrefix + r.value
  {
    if HostPrefix <= host then Some(host[|HostPrefix|..]) else None
  }

  /** The three-argument constructor: the host is the service prefix followed by the domain, unmodified. */
  function NewClient<H>(httpClient: H, token: string, domain: string): (c: Client<H>)
    ensures c.httpClient == httpClient && c.token == token
    ensures DomainOfHost(c.host) == Some(domain)
  {
    var c := Client(httpClient, HostPrefix + domain, token);
    assert c.host[|HostPrefix|..] == domain;
    c
  }

  /** The two-argument constructor: the three-argument one with the default domain. */
  function NewDefaultClient<H>(httpClient: H, token: string): (c: Client<H>)
    ensures c == NewClient(httpClient, token, DefaultDomain)
    ensures DomainOfHost(c.host) == Some("agiliumtrade.agiliumtrade.ai")
  {
    NewClient(httpClient, token, DefaultDomain)
  }

  /** The host of a client built with the default domain, spelled out. */
  lemma DefaultHost<H>(httpClient: H, token: string)
    ensures NewDefaultClient(httpClient, token).host == "https://metastats-api-v1.agiliumtrade.agiliumtrade.ai"
  {
    assert HostPrefix + DefaultDomain == "https://metastats-api-v1.agiliumtrade.agiliumtrade.ai";
  }

  /** Different domains give different hosts: the domain is kept whole in the host. */
  lemma HostDeterminesDomain<H>(httpClient: H, token: string, d1: string, d2: string)
    ensures NewClient(httpClient, token, d1).host == NewClient(httpClient, token, d2).host <==> d1 == d2
  {
    var h1, h2 := NewClient(httpClient, token, d1).host, NewClient(httpClient, token, d2).host;
    assert DomainOfHost(h1) == Some(d1) && DomainOfHost(h2) == Some(d2);
  }

  // ---------------------------------------------------------------------------
  // The request description

  datatype Method = Get | Post | Put | Delete

  /** `HttpRequestOptions`: what the transport is asked to fetch. */
  datatype HttpRequestOptions = HttpRequestOptions(
    url: string,
    httpMethod: Method,
    headers: map<string, string>,
    queryParameters: map<string, Json>)

  /**
   The metrics URL of an account: the host and the accounts path, the account id
   verbatim, then the metrics path.
   */
  function MetricsUrl(host: string, accountId: string): (r: string)
    ensures |r| == |host| + |AccountsPath| + |accountId| + |MetricsPath|
    ensures host + AccountsPath <= r
    ensures r[|host| + |AccountsPath|..|r| - |MetricsPath|] == accountId
    ensures r[|r| - |MetricsPath|..] == MetricsPath
  {
    host + AccountsPath + accountId + MetricsPath
  }

  /** The account id a metrics URL for `host` names, or `None` when `url` is not one. */
  function AccountIdOfMetricsUrl(host: string, url: string): (r: Option<string>)
    ensures r.Some? ==> url == MetricsUrl(host, r.value)
  {
    var prefix := host + AccountsPath;
    if prefix <= url && |prefix| + |MetricsPath| <= |url| && url[|url| - |MetricsPath|..] == MetricsPath then
      var accountId := url[|prefix|..|url| - |MetricsPath|];
      assert url == prefix + accountId + MetricsPath by {
        assert url == url[..|prefix|] + url[|prefix|..|url| - |MetricsPath|] + url[|url| - |MetricsPath|..];
      }
      Some(accountId)
    else None
  }

  /** The account id is placed in the URL verbatim: it can be read back whatever characters it holds. */
  lemma MetricsUrlRoundTrip(host: string, accountId: string)
    ensures AccountIdOfMetricsUrl(host, MetricsUrl(host, accountId)) == Some(accountId)
  {
    var prefix := host + AccountsPath;
    var url := MetricsUrl(host, accountId);
    assert url == prefix + accountId + MetricsPath;
    assert prefix <= url;
    assert url[|url| - |MetricsPath|..] == MetricsPath;
    assert url[|prefix|..|url| - |MetricsPath|] == accountId;
  }

  /**
   `getMetrics(accountId, includeOpenPositions)`, the request it builds: a GET of the
   account's metrics URL with exactly one query parameter and exactly one header.
   */
  function MetricsRequestOptions<H>(c: Client<H>, accountId: string, includeOpenPositions: bool)
    : (r: HttpRequestOptions)
    ensures r.httpMethod == Get
    ensures AccountIdOfMetricsUrl(c.host, r.url) == Some(accountId)
    ensures r.queryParameters.Keys == {"includeOpenPositions"}
    ensures r.queryParameters["includeOpenPositions"] == JBool(includeOpenPositions)
    ensures r.headers.Keys == {"auth-token"}
    ensures r.headers["auth-token"] == c.token
  {
    MetricsUrlRoundTrip(c.host, accountId);
    HttpRequestOptions(
      MetricsUrl(c.host, accountId),
      Get,
      map[AuthTokenHeader := c.token],
      map[IncludeOpenPositionsParameter := JBool(includeOpenPositions)])
  }

  /** Two metrics requests of one client are equal exactly when they ask for the same account and flag. */
  lemma MetricsRequestInjective<H>(c: Client<H>, a1: string, b1: bool, a2: string, b2: bool)
    ensures MetricsRequestOptions(c, a1, b1) == MetricsRequestOptions(c, a2, b2) <==> a1 == a2 && b1 == b2
  {
    var r1, r2 := MetricsRequestOptions(c, a1, b1), MetricsRequestOptions(c, a2, b2);
    if r1 == r2 {
      assert AccountIdOfMetricsUrl(c.host, r1.url) == Some(a1);
      assert AccountIdOfMetricsUrl(c.host, r2.url) == Some(a2);
      assert r1.queryParameters["includeOpenPositions"] == JBool(b1);
      assert r2.queryParameters["includeOpenPositions"] == JBool(b2);
    }
  }

  /** The request the two-argument client constructor leads to, as its test spells it out. */
  lemma DefaultClientMetricsRequest<H>(httpClient: H, token: string, accountId: string, includeOpenPositions: bool)
    ensures MetricsRequestOptions(NewDefaultClient(httpClient, token), accountId, includeOpenPositions)
      == HttpRequestOptions(
           "https://metastats-api-v1.agiliumtrade.agiliumtrade.ai/users/current/accounts/" + accountId + "/metrics",
           Get,
           map["auth-token" := token],
           map["includeOpenPositions" := JBool(includeOpenPositions)])
  {
    var c := NewDefaultClient(httpClient, token);
    DefaultHost(httpClient, token);
    DefaultAccountsPrefix();
    assert MetricsUrl(c.host, accountId)
      == "https://metastats-api-v1.agiliumtrade.agiliumtrade.ai/users/current/accounts/" + accountId + "/metrics";
  }

  lemma DefaultAccountsPrefix()
    ensures "https://metastats-api-v1.agiliumtrade.agiliumtrade.ai" + AccountsPath
      == "https://metastats-api-v1.agiliumtrade.agiliumtrade.ai/users/current/accounts/"
  {
  }

  // ---------------------------------------------------------------------------
  // The response envelope

  /** `MetricsResponse`: the body's envelope, whose one field may be `null`. */
  datatype MetricsResponse<M> = MetricsResponse(metrics: Option<M>)

  /**
   `getMetrics(accountId, includeOpenPositions)`: hands the request to the client's
   own transport and passes its failure through unchanged, or its envelope's
   `metrics` field.
   */
  function GetMetrics<H, M, E>(
    c: Client<H>, accountId: string, includeOpenPositions: bool,
    requestJson: (H, HttpRequestOptions) -> Result<MetricsResponse<M>, E>)
    : (r: Result<Option<M>, E>)
    ensures var answer := requestJson(c.httpClient, MetricsRequestOptions(c, accountId, includeOpenPositions));
      && (r.Failure? <==> answer.Failure?)
      && (r.Failure? ==> r.error == answer.error)
      && (r.Success? ==> r.value == answer.value.metrics)
  {
    match requestJson(c.httpClient, MetricsRequestOptions(c, accountId, includeOpenPositions))
    case Success(response) => Success(response.metrics)
    case Failure(e) => Failure(e)
  }

  /** `getMetrics(accountId)`: the same call with open positions excluded. */
  function GetMetricsDefault<H, M, E>(
    c: Client<H>, accountId: string,
    requestJson: (H, HttpRequestOptions) -> Result<MetricsResponse<M>, E>)
    : (r: Result<Option<M>, E>)
    ensures r == GetMetrics(c, accountId, false, requestJson)
  {
    GetMetrics(c, accountId, false, requestJson)
  }

  /**
   The result depends on the transport only through its answer, on the client's own
   handle, to the one metrics request.
   */
  lemma GetMetricsAsksOnce<H, M, E>(
    c: Client<H>, accountId: string, includeOpenPositions: bool,
    t1: (H, HttpRequestOptions) -> Result<MetricsResponse<M>, E>,
    t2: (H, HttpRequestOptions) -> Result<MetricsResponse<M>, E>)
    requires t1(c.httpClient, MetricsRequestOptions(c, accountId, includeOpenPositions))
      == t2(c.httpClient, MetricsRequestOptions(c, accountId, includeOpenPositions))
    ensures GetMetrics(c, accountId, includeOpenPositions, t1) == GetMetrics(c, accountId, includeOpenPositions, t2)
  {
  }

  /**
   The envelope read from a JSON body: `metrics` absent or `null` gives `null`; an
   object is kept as the metrics tree; any other node, or a non-object body, is an error.
   */
  function DecodeMetricsResponse(j: Json): (r: Result<MetricsResponse<Json>, DecodeError>)
    ensures r.Success? <==> j.JObject? && (Present(j.members, "metrics").Some? ==> j.members["metrics"].JObject?)
    ensures r.Success? ==> (r.value.metrics ==
      (if Present(j.members, "metrics").None? then None else Some(j.members["metrics"])))
  {
    match j
    case JObject(members) =>
      (match Present(members, "metrics")
       case None => Success(MetricsResponse(None))
       case Some(JObject(m)) => Success(MetricsResponse(Some(JObject(m))))
       case Some(_) => Failure(WrongKind(["metrics"])))
    case _ => Failure(WrongKind([]))
  }

  /** A transport that answers the metrics request with the body `{"metrics": m}` yields exactly `m`. */
  lemma GetMetricsUnwrapsEnvelope<H>(
    c: Client<H>, accountId: string, includeOpenPositions: bool,
    body: (H, HttpRequestOptions) -> Json, metrics: map<string, Json>)
    requires body(c.httpClient, MetricsRequestOptions(c, accountId, includeOpenPositions))
      == JObject(map["metrics" := JObject(metrics)])
    ensures GetMetrics(c, accountId, includeOpenPositions,
        (h: H, req: HttpRequestOptions) => DecodeMetricsResponse(body(h, req)))
      == Success(Some(JObject(metrics)))
  {
  }

  // ---------------------------------------------------------------------------
  // CurrencySummaryMetrics field names

  /** The fields of `CurrencySummaryMetrics`; `short_` and `long_` carry `@JsonProperty` overrides. */
  const CurrencySummaryFields: seq<FieldBinding> := [
    FieldBinding("currency", None),
    FieldBinding("history", None),
    FieldBinding("total", None),
    FieldBinding("short_", Some("short")),
    FieldBinding("long_", Some("long"))
  ]

  /** `short_` and `long_` travel as `short` and `long`; every other field travels under its own name. */
  lemma CurrencySummaryWireKeys()
    ensures WellFormed(CurrencySummaryFields)
    ensures forall i | 0 <= i < |CurrencySummaryFields| ::
      WireKey(CurrencySummaryFields[i]) ==
        (if CurrencySummaryFields[i].name == "short_" then "short"
         else if CurrencySummaryFields[i].name == "long_" then "long"
         else CurrencySummaryFields[i].name)
  {
    var fs := CurrencySummaryFields;
    // the five names, and the five wire keys, already differ in their first letter
    forall i, j | 0 <= i < |fs| && 0 <= j < |fs| && i != j
      ensures fs[i].name != fs[j].name && WireKey(fs[i]) != WireKey(fs[j])
    {
      assert fs[i].name[0] != fs[j].name[0];
      assert WireKey(fs[i])[0] != WireKey(fs[j])[0];
    }
  }

  /**
   Decoding fills `short_` and `long_` from the members `short` and `long`; a
   member spelled like the field name fills nothing.
   */
  lemma CurrencySummaryReadsShortLong(obj: map<string, Json>)
    ensures WellFormed(CurrencySummaryFields)
    ensures var r := FromWire(CurrencySummaryFields, obj);
      && ("short_" in r <==> "short" in obj) && ("short" in obj ==> r["short_"] == obj["short"])
      && ("long_" in r <==> "long" in obj) && ("long" in obj ==> r["long_"] == obj["long"])
      && "short" !in r && "long" !in r
  {
    var fs := CurrencySummaryFields;
    CurrencySummaryWireKeys();
    assert WireKey(fs[3]) == "short" && WireKey(fs[4]) == "long";
    forall i | 0 <= i < |fs| ensures fs[i].name != "short" && fs[i].name != "long" {
      assert fs[i].name[|fs[i].name| - 1] != 't' && fs[i].name[|fs[i].name| - 1] != 'g';
    }
  }

  /** Encoding writes `short_` and `long_` under `short` and `long`, and never under the field names. */
  lemma CurrencySummaryWritesShortLong(record: map<string, Json>)
    ensures WellFormed(CurrencySummaryFields)
    ensures var o := ToWire(CurrencySummaryFields, record);
      && ("short" in o <==> "short_" in record) && ("short_" in record ==> o["short"] == record["short_"])
      && ("long" in o <==> "long_" in record) && ("long_" in record ==> o["long"] == record["long_"])
      && "short_" !in o && "long_" !in o
  {
    var fs := CurrencySummaryFields;
    CurrencySummaryWireKeys();
    assert WireKey(fs[3]) == "short" && WireKey(fs[4]) == "long";
    forall i | 0 <= i < |fs| ensures WireKey(fs[i]) != "short_" && WireKey(fs[i]) != "long_" {
      assert WireKey(fs[i])[|WireKey(fs[i])| - 1] != '_';
    }
  }
}

=== FILE: wrappers.dfy ===
/**
 Failure-carrying values used throughout the model: `Option` stands for a Java
 reference that may be `null`, `Result` for a value or the error that ends a call.
 */
module Wrappers {

  datatype Option<+T> = None | Some(value: T)

  datatype Result<+T, +E> = Success(value: T) | Failure(error: E)
}
